=== FILE: README.md ===
# eget asset finders, modelled in Dafny

This project models how eget's `find.go` turns a project and a version
selector into the list of asset URLs to download. It covers five finders:

- `GithubAssetFinder` looks up a release through GitHub's REST API. When an
  exact tag is unknown, it scans the paginated release listing for a tag
  that contains the requested text.
- `GitlabAssetFinder` does one lookup through GitLab's API and has no
  fallback.
- `DirectAssetFinder` hands back the URL it holds.
- `GithubSourceFinder` and `GitlabSourceFinder` fill a tarball URL template.

HTTP and JSON decoding are replaced by a scripted API (`Api.Api`), a total
function from request URL to `Response`. A response is a transport failure
or a status code, a status line and an already classified body: one
release, a list of releases, an error document, malformed JSON, or a body
whose reading failed. Every finder returns a `Run`: the result (asset URLs
or a `FindError`) together with the URLs it requested, in order. Because of
this, "no further request is made" can be stated about the request trace.

Modules:

- `Strings`: Go's `HasPrefix`, `CutPrefix` and `Contains`, plus `%d`.
- `UrlEscape`: Go's `url.QueryEscape`.
- `Api`: releases, bodies, responses, errors, decoding, the floor test and
  the tag selector.
- `Errors`: the `Error()` renderings.
- `Prerelease`: `getLatestTag` and the rewrite of `"latest"`.
- `Github` and `GithubFacts`: the GitHub finder and its properties.
- `Gitlab` and `GitlabFacts`: the GitLab finder and its properties.
- `Archive`: the direct and source-archive finders.
- `Finders`: the `Finder` interface.
- `Scenarios`: worked examples against small scripted APIs.

Behaviours of `find.go` worth noting, all modelled as the code has them:

- An empty release listing fails with the bare "no releases found". It is
  not wrapped in the "pre-release finder:" prefix that other listing
  failures get (find.go:224-226).
- `getLatestTag` never looks at the status code. An error reply fails only
  because its body does not decode as an array (find.go:208-222).
- The GitHub finder accepts any selector string. A selector that is neither
  `"latest"` nor `"tags/…"` is looked up verbatim. A 404 for it is a
  `GithubError`, not a configuration error (find.go:97-118).
- On a non-200 reply the body is read before the 404 test. A failed read is
  returned as is, and then even a 404 for an exact tag does not fall back
  (find.go:105-112).
- The floor test is `Before`. A release created exactly at `MinTime`
  qualifies.
- Go decodes a JSON object with no release fields into a release struct
  without error. An error document served with status 200 therefore
  becomes the zero release (`Api.ZeroRelease`). An object never decodes
  into a slice.

## Model

| member | source | states |
|---|---|---|
| `Strings.ContainsIffOccurs` | find.go:187 | the substring test used by the search holds exactly when the target occurs at some index of the tag |
| `Strings.CutPrefix` | find.go:253 | the cut succeeds exactly when the selector starts with the prefix, and prefix plus remainder give the selector back |
| `Strings.Decimal` | find.go:150 | the page number is written as at least one decimal digit, with no sign and no leading zero |
| `Strings.DecimalRoundTrip` | find.go:150 | the page number written into a page URL reads back as the same number, so distinct page numbers are written differently |
| `UrlEscape.QueryEscape` | find.go:251 | escaping never shortens the text and never yields more than 12 characters per character; every output character is unreserved, `+` or `%` |
| `UrlEscape.EscapedIsOneSegment` | find.go:254 | an escaped project or tag holds no `/`, `?`, `#` or space, so it stays one path segment |
| `UrlEscape.UnreservedUnchanged` | find.go:251 | text made only of letters, digits and `-_.~` passes through escaping unchanged |
| `UrlEscape.EscapeAppend` | find.go:251 | escaping works character by character, so it commutes with concatenation |
| `UrlEscape.SlashEscaped` | find.go:251 | when owner and name consist only of letters, digits and `-_.~`, a project path `owner/name` keeps both halves and gets `%2F` in place of its separator |
| `Api.Recent` | find.go:133-143 | the result is the no-upgrade sentinel exactly when the release was created before the floor; otherwise it is the release's assets, same length and order |
| `Api.ParseSelector` | find.go:249-258 | every selector parses into a well-formed value: `"latest"`, an exact tag, or something that is neither |
| `Api.ParseRender` | find.go:253 | a well-formed selector survives rendering and parsing again, so `"tags/" + t` always parses back to the exact tag `t` |
| `Api.PinnedSelector` | find.go:93 | the rewritten selector parses to the exact tag of the newest listed release |
| `Prerelease.Listed` | find.go:213-222 | a listing yields releases exactly when the reply's body is a JSON array, whatever its status; a failed request is a transport error |
| `Prerelease.Newest` | find.go:206-229 | exactly one request, to the listing; success exactly when the listing is non-empty, giving its first entry; an empty listing is "no releases found"; other failures are wrapped |
| `Prerelease.ResolveTag` | find.go:88-94 | only a prerelease finder asking for `"latest"` makes a request; on success the new selector is the exact tag of the newest release, on failure the listing's failure is returned; every other finder keeps its selector |
| `Errors.StatusAndUrl` | find.go:62-73 | the shared `"<status> (URL: <url>)"` text starts with the status and contains the request URL |
| `Errors.GithubMessage` | find.go:55-63 | the text starts with the status; for 403 it contains the body's message and documentation link; otherwise it contains the request URL |
| `Errors.GitlabMessage` | find.go:72-74 | the text starts with the status and contains the request URL, whatever the status |
| `Errors.RenderingsAgreeUnlessForbidden` | find.go:55-74 | GitHub and GitLab render the same error identically if and only if its status is not 403 |
| `Errors.Message` | find.go:202-273 | a wrapped listing failure starts with "pre-release finder: "; the no-match and invalid-format errors contain the tag they name |
| `Github.FirstAccepted` | find.go:183-195 | the scan of one page returns the first release that passes all three tests, or reports that none does |
| `Github.SearchPages` | find.go:149-202 | the search requests pages in order from its start page, never past the first page it cannot read past; every page before the last was full with nothing accepted; on the last page it fails with that page's failure or platform error, or returns the first accepted release's assets, or gives the no-match error on a short page |
| `Github.FindMatch` | find.go:146-203 | the fallback search requests pages 1, 2, … in order; every page but the last was full with nothing accepted, and the last decides the result as `Concludes` describes |
| `Github.Lookup` | find.go:96-143 | the lookup URL is the first request; without the fallback it is the only one, and a success is the assets of the release the 200 reply decoded to, not older than the floor; with the fallback the later requests are pages 1, 2, … |
| `Github.Find` | find.go:87-144 | the first request is the listing for a prerelease `"latest"` finder and the direct lookup otherwise; "no releases found" comes only from the listing, after that one request |
| `GithubFacts.UrlsDistinct` | find.go:97-207 | the direct lookup, a listing page and the unpaged listing never share a URL, whatever the selector; different page numbers give different page URLs |
| `GithubFacts.ConcludedNotSkipped` | find.go:183-199 | the search never ends on a full page with nothing accepted |
| `GithubFacts.DecidedAtFirstUnskipped` | find.go:149-202 | the first page that is not full-with-nothing-accepted decides the search: exactly pages 1 to that page are requested |
| `GithubFacts.FirstMatchWins` | find.go:183-195 | the first acceptable release, across pages and within a page, is returned; no later release or page is consulted |
| `GithubFacts.ShortPageEndsSearch` | find.go:197-202 | a short page with nothing acceptable ends the search with "no matching tag" after exactly that many requests |
| `GithubFacts.ErrorPageAbortsSearch` | find.go:158-169 | a non-200 page aborts with a GitHub error carrying that page's status, body and URL; no further page is requested |
| `GithubFacts.FailureAbortsSearch` | find.go:151-181 | a transport, read or decode failure on a page aborts the search with that failure; no further page is requested |
| `GithubFacts.SearchNeverNoUpgrade` | find.go:187 | the search skips releases older than the floor and never reports the no-upgrade sentinel |
| `GithubFacts.LookupSuccess` | find.go:121-143 | a 200 reply with a release is the only request; the result is the no-upgrade sentinel if the release is older than the floor, otherwise its assets in order |
| `GithubFacts.LookupFailureStatus` | find.go:105-119 | after a non-200 reply: an unreadable body is a transport error; a 404 for `"tags/<t>"` returns exactly what the search for `t` returns, after the one lookup request; any other status, including 404 for `"latest"`, is a GitHub error with status, body and lookup URL |
| `GithubFacts.LookupDecodeFailure` | find.go:121-131 | a 200 reply holding no release, after that one request: a failed read is a transport error, a list or malformed JSON a decode error, and an error object decodes to the zero release that the floor then judges |
| `GithubFacts.LookupTransportFailure` | find.go:98-101 | a failed lookup request is passed on unchanged after that one request |
| `GithubFacts.FindKeepsSelector` | find.go:87-98 | without the prerelease rewrite, the finder is the direct lookup of its own selector, and that lookup URL is the first request |
| `GithubFacts.FindRewritesLatest` | find.go:88-94 | a prerelease `"latest"` finder first requests the listing; an empty or failed listing ends the run with no lookup request; otherwise it looks up `"tags/"` plus the first listed tag |
| `GithubFacts.FindReturnsFreshRelease` | find.go:87-203 | on every path, a returned asset list is that of a release the API served to the last request (the direct lookup, or the page the search concluded on; never the listing), and that release is not older than the floor |
| `Gitlab.RequestUrl` | find.go:249-258 | `"latest"` asks the permalink, `"tags/<t>"` asks for the escaped `t`, and any other selector has no request URL |
| `Gitlab.Lookup` | find.go:249-306 | at most one request; no request exactly when the selector is malformed, and then the result is the invalid-format error |
| `Gitlab.Find` | find.go:240-306 | the GitLab finder never makes more than two requests |
| `GitlabFacts.InvalidTagFailsFast` | find.go:253-257 | a selector that is neither `"latest"` nor `"tags/…"` fails with the invalid-format error and makes no request |
| `GitlabFacts.LatestUsesPermalink` | find.go:250-251 | `"latest"` without prereleases makes exactly one request, to the permalink |
| `GitlabFacts.LookupFailureStatus` | find.go:267-281 | for an exact tag, a 404 is "no matching tag" after a single request with no fallback; any other non-200 status is a GitLab error with status, body and URL; an unreadable body is a transport error |
| `GitlabFacts.LatestFailureIsPlatformError` | find.go:267-281 | for `"latest"` every non-200 status, 404 included, is a GitLab error |
| `GitlabFacts.LookupTransportFailure` | find.go:260-263 | a failed lookup request is passed on unchanged after that one request |
| `GitlabFacts.LookupDecodeFailure` | find.go:284-293 | a 200 reply holding no release: a failed read is a transport error, a list or malformed JSON a decode error, and an error object decodes to the zero release that the floor then judges |
| `GitlabFacts.LookupSuccess` | find.go:283-305 | a 200 reply with a release gives the no-upgrade sentinel if it is older than the floor, otherwise its assets in order, after the one request |
| `GitlabFacts.FindRewritesLatest` | find.go:241-247 | a prerelease `"latest"` finder first requests the listing; an empty or failed listing ends the run; otherwise the second request is for the first listed tag, and the run's result is exactly that of the lookup of `"tags/"` plus that tag |
| `GitlabFacts.FindKeepsSelector` | find.go:240-248 | without the prerelease rewrite, the finder is the lookup of its own selector |
| `GitlabFacts.FindReturnsFreshRelease` | find.go:240-306 | on every path, a returned asset list is that of the release the API served to the last request, the lookup (never the listing), and that release is not older than the floor |
| `GitlabFacts.UrlsDistinct` | find.go:251-310 | the listing, the latest-release permalink and the release of any exact tag never share a URL, because the escaped tag holds no `/` |
| `GitlabFacts.ProjectPathEscaped` | find.go:251-254 | when owner and name consist only of letters, digits and `-_.~`, the project `owner/name` appears in GitLab request URLs as `owner%2Fname` |
| `Archive.DirectFind` | find.go:339-341 | succeeds with exactly one URL, the one held, and makes no request |
| `Archive.GithubSourceFind` | find.go:349-351 | succeeds with exactly one URL, GitHub's tarball URL for the project, tag and tool, and makes no request |
| `Archive.GitlabSourceFind` | find.go:359-361 | succeeds with exactly one URL, GitLab's archive URL for the project, tag and tool, and makes no request |
| `Archive.ParseArchiveRoundTrip` | find.go:349-361 | when tag and tool are single path segments, parsing an archive URL gives back its project, tag and tool |
| `Archive.GithubArchiveInjective` | find.go:349-351 | when tags and tools contain no `/`, different projects, tags or tools give different GitHub archive URLs |
| `Archive.GitlabArchiveInjective` | find.go:359-361 | when tags and tools contain no `/`, different projects, tags or tools give different GitLab archive URLs |
| `Finders.Find` | find.go:14-17 | leaf finders succeed with one URL and no request; the GitLab release finder makes at most two requests |
| `Finders.LeafIgnoresApi` | find.go:334-361 | what a leaf finder returns does not depend on the API |
| `Finders.NotFoundAsymmetry` | find.go:267-274 | on a 404 for the same exact tag, GitLab fails at once with "no matching tag" after one request, while GitHub (find.go:110-111) goes on to request page 1 of its listing |
| `Scenarios.ArchiveExamples` | find.go:339-361 | tool `foo`, project `o/r` and tag `v1` give the two expected tarball URLs; a direct finder returns its URL verbatim |
| `Scenarios.ForbiddenRendering` | find.go:55-63 | a 403 with message "rate limited" and link "https://docs" renders all three pieces |
| `Scenarios.FallbackSearch` | find.go:183-195 | page 1 lists a prerelease and then a final release tagged `release-v1.0-final`; the search for `v1.0` returns the final release's assets after that one page |
| `Scenarios.FallbackFindsDecoratedTag` | find.go:105-195 | after a 404 for `tags/v1.0`, the search skips a prerelease tagged `release-v1.0-final` and returns the final release's two assets after exactly two requests |

## Left out

- Transport: `Get`, `io.ReadAll` and `resp.Body.Close` are replaced by the
  scripted API. A failed read is the `Unreadable` body. Closing, and the
  deferred closes piling up in the paging loop, are not modelled.
- JSON decoding: bodies arrive already classified, and `Api.DecodeRelease`
  and `Api.DecodeList` state how each class decodes rather than prove it.
  A failed read is a transport error. A release object decodes to itself
  into a release struct, and an error object (no release fields) to the
  zero release. A list decodes into a slice and nothing else does. Every
  other pairing, and malformed JSON, is a decode error. The exact text of
  `encoding/json` errors is not modelled: a shape mismatch carries a fixed
  reason. Go's `null`-into-slice decoding, objects whose fields have the
  wrong JSON type and partially valid documents are not modelled either.
- Time: timestamps are integer Unix seconds, and `Before` is `<`.
- Github.SearchPages: when the lookup falls back to the search, the caller
  names a page `stop` that the search does not read past: a failed or
  non-200 reply, a body that is not a list, a page with an acceptable
  release, or a page of fewer than 30 releases (`Github.EndsBy`). This
  ghost parameter bounds the recursion. It excludes exactly the listings
  on which the source's loop never ends, where every page is full and has
  nothing acceptable. It is not required when the lookup does not fall
  back.
- Github.FindMatch: when called directly it takes the search target
  already stripped of `"tags/"`. The source slices `f.Tag` and would panic
  on a shorter selector, but it is only ever called after the prefix
  check.
- The in-place rewrite of `f.Tag` is modelled as a new selector value
  passed on. That the caller's finder keeps the rewritten tag after `Find`
  returns is not modelled.
- Byte strings: Go strings are bytes; here strings are taken to be valid
  UTF-8 and are modelled as sequences of Unicode scalar values. A Go string
  that is not valid UTF-8 cannot be represented. `Strings.Contains`
  (find.go:187) and the cuts of `"tags/"` (find.go:147, 273) agree with Go
  only on valid UTF-8.
- UrlEscape.QueryEscape: each character is encoded as UTF-8 before
  percent-escaping, so it agrees with Go's byte-wise escaping on valid
  UTF-8 only.
- `fmt.Errorf`'s `%w` wrapping is modelled as the `PreReleaseFinder` error
  around its cause. `errors.Is` and `errors.Unwrap` are not modelled.

=== FILE: api.dfy ===
/** The data both release finders work on: releases, the scripted API that
    stands in for HTTP and JSON decoding, the request that configures a
    finder, and the closed set of ways a resolution can fail. */
module Api {
  import opened Strings

  type Url = string

  /** Seconds since the Unix epoch; `time.Time.Before` becomes `<`. */
  type Timestamp = int

  /** Go's zero `time.Time` (0001-01-01T00:00:00Z) in Unix seconds: the
      creation time of a release decoded from an object with no
      `created_at` field. */
  const ZeroTime: Timestamp := -62135596800

  const StatusOK := 200
  const StatusForbidden := 403
  const StatusNotFound := 404

  /** A release as both platforms describe it once decoded: GitHub's
      `prerelease` and GitLab's `upcoming_release` both land in
      `prerelease`, and the asset download URLs keep their listing order. */
  datatype Release = Release(tag: string, createdAt: Timestamp, prerelease: bool, assets: seq<Url>)

  /** What decoding `{}` into a release yields in Go: every field zero. */
  const ZeroRelease := Release("", ZeroTime, false, [])

  /** A response body, already read and classified by its JSON shape.
      `Unreadable` is a body whose reading failed part way. */
  datatype Body =
    | ReleaseDoc(release: Release)
    | ListDoc(releases: seq<Release>)
    | ErrorDoc(message: string, doc: string)
    | Malformed(reason: string)
    | Unreadable(reason: string)

  /** The outcome of one GET: either the transport failed, or a status line
      and a body came back. */
  datatype Response =
    | TransportFailure(reason: string)
    | Reply(code: int, status: string, body: Body)

  /** The scripted API: the response the platform gives to each URL. */
  type Api = Url -> Response

  /** The fields of a release finder: which project, which selector
      (`"latest"` or `"tags/<tag>"`), whether prereleases qualify, and the
      creation time a release must not be before. */
  datatype AssetQuery = AssetQuery(repo: string, tag: string, prerelease: bool, minTime: Timestamp)

  /** GitHub's and GitLab's error records have the same fields. */
  datatype PlatformError = PlatformError(code: int, status: string, body: Body, url: Url)

  datatype FindError =
    | Transport(reason: string)            // the GET or the body read failed
    | Decode(reason: string)               // the body is not the JSON shape expected
    | PreReleaseFinder(cause: FindError)   // wraps a failure while listing releases
    | NoReleases                           // the release listing is empty
    | Github(err: PlatformError)
    | Gitlab(err: PlatformError)
    | NoUpgrade                            // the release is older than the floor
    | NoMatch(target: string)              // no release carries the tag
    | InvalidTag(tag: string)              // a selector GitLab cannot use

  datatype Result<+T> = Ok(value: T) | Err(error: FindError)

  /** A result together with the URLs requested to reach it, in order. */
  datatype Run<+T> = Run(result: Result<T>, requests: seq<Url>)

  /** `Before` on timestamps: the floor test of both finders. */
  predicate Before(t: Timestamp, floor: Timestamp) {
    t < floor
  }

  /** The failure a body yields when it cannot be decoded as `expected`. */
  function Mismatch(b: Body, expected: string): FindError
    requires !b.Unreadable?
  {
    if b.Malformed? then Decode(b.reason)
    else Decode("json: cannot unmarshal into " + expected)
  }

  /** Reads a body and decodes one release from it, as `io.ReadAll`
      followed by `json.Unmarshal` into a release struct do. A JSON object
      of another shape decodes to the zero release; an array does not
      decode. */
  function DecodeRelease(b: Body): (r: Result<Release>)
    ensures b.Unreadable? ==> r == Err(Transport(b.reason))
    ensures r.Err? && r.error.Transport? ==> b.Unreadable?
    ensures b.ReleaseDoc? ==> r == Ok(b.release)
    ensures b.ErrorDoc? ==> r == Ok(ZeroRelease)
    ensures (b.ListDoc? || b.Malformed?) <==> (r.Err? && r.error.Decode?)
  {
    match b
    case Unreadable(reason) => Err(Transport(reason))
    case ReleaseDoc(release) => Ok(release)
    case ErrorDoc(_, _) => Ok(ZeroRelease)
    case _ => Err(Mismatch(b, "release"))
  }

  /** Reads a body and decodes a list of releases from it; only a JSON
      array decodes into a Go slice. */
  function DecodeList(b: Body): (r: Result<seq<Release>>)
    ensures b.Unreadable? ==> r == Err(Transport(b.reason))
    ensures r.Err? && r.error.Transport? ==> b.Unreadable?
    ensures r.Ok? <==> b.ListDoc?
    ensures r.Ok? ==> r.value == b.releases
  {
    match b
    case Unreadable(reason) => Err(Transport(reason))
    case ListDoc(releases) => Ok(releases)
    case _ => Err(Mismatch(b, "[]release"))
  }

  /** The asset list of a release that matched, or the no-upgrade sentinel
      when it was created before the floor. */
  function Recent(r: Release, minTime: Timestamp): (res: Result<seq<Url>>)
    ensures res.Err? <==> Before(r.createdAt, minTime)
    ensures res.Err? ==> res.error == NoUpgrade
    ensures res.Ok? ==> res.value == r.assets
  {
    if Before(r.createdAt, minTime) then Err(NoUpgrade) else Ok(r.assets)
  }

  /** Release `r` was served in a 200 reply, alone or on a listing. */
  ghost predicate ServedAt(resp: Response, r: Release) {
    resp.Reply? && resp.code == StatusOK
    && (DecodeRelease(resp.body) == Ok(r) || (resp.body.ListDoc? && r in resp.body.releases))
  }

  /** A finder's `"latest"` selector. */
  const Latest := "latest"

  /** The prefix of an exact-tag selector. */
  const TagsPrefix := "tags/"

  /** `"latest"` is not an exact-tag selector. */
  lemma LatestNotTagged()
    ensures !HasPrefix(Latest, TagsPrefix)
  {
    assert Latest[0] != TagsPrefix[0];
  }

  /** The tag selector as a value rather than a string convention. */
  datatype Selector =
    | LatestRelease
    | Tagged(name: string)
    | Unrecognised(raw: string)

  predicate WellFormed(sel: Selector) {
    sel.Unrecognised? ==> sel.raw != Latest && !HasPrefix(sel.raw, TagsPrefix)
  }

  function ParseSelector(tag: string): (sel: Selector)
    ensures WellFormed(sel)
  {
    if tag == Latest then LatestRelease
    else match CutPrefix(tag, TagsPrefix)
      case Some(name) => Tagged(name)
      case None => Unrecognised(tag)
  }

  function RenderSelector(sel: Selector): string {
    match sel
    case LatestRelease => Latest
    case Tagged(name) => TagsPrefix + name
    case Unrecognised(raw) => raw
  }

  /** Every selector string is read without loss. */
  lemma RenderParse(tag: string)
    ensures RenderSelector(ParseSelector(tag)) == tag
  {
  }

  /** Every well-formed selector survives rendering and parsing. */
  lemma ParseRender(sel: Selector)
    requires WellFormed(sel)
    ensures ParseSelector(RenderSelector(sel)) == sel
  {
    if sel.Tagged? {
      var s := TagsPrefix + sel.name;
      assert s[..|TagsPrefix|] == TagsPrefix;
      assert s != Latest by { assert |s| >= 5 && s[0] == 't' && Latest[0] == 'l'; }
    }
  }

  /** The rewrite of `"latest"` when prereleases are allowed: the selector
      becomes the exact tag of the newest listed release. */
  function PinnedSelector(newest: Release): (tag: string)
    ensures ParseSelector(tag) == Tagged(newest.tag)
  {
    ParseRender(Tagged(newest.tag));
    RenderSelector(Tagged(newest.tag))
  }
}

=== FILE: archive.dfy ===
/** The finders that need no API: `DirectAssetFinder`, which hands back the
    URL it was built with, and the two source-archive finders, which fill a
    tarball URL template with the project, tag and tool name. */
module Archive {
  import opened Strings
  import opened Api

  const GithubSite := "https://github.com/"
  const GitlabSite := "https://gitlab.com/"

  /** The path segment GitHub puts between project and tag. */
  const GithubMarker := "/tarball"

  /** The path segments GitLab puts between project and tag. */
  const GitlabMarker := "/-/archive"

  const Extension := ".tar.gz"

  /** `<site><repo><marker>/<tag>/<tool>.tar.gz`; nothing is escaped or
      checked. */
  function ArchiveUrl(site: string, marker: string, tool: string, repo: string, tag: string): Url {
    site + repo + marker + "/" + tag + "/" + tool + Extension
  }

  /** `DirectAssetFinder.Find`: the one URL it holds, verbatim. */
  function DirectFind(url: Url): (run: Run<seq<Url>>)
    ensures run.result.Ok? && |run.result.value| == 1 && run.result.value[0] == url
    ensures run.requests == []
  {
    Run(Ok([url]), [])
  }

  /** `GithubSourceFinder.Find`. */
  function GithubSourceFind(tool: string, repo: string, tag: string): (run: Run<seq<Url>>)
    ensures run.result.Ok? && |run.result.value| == 1
    ensures run.result.value[0] == ArchiveUrl(GithubSite, GithubMarker, tool, repo, tag)
    ensures run.requests == []
  {
    Run(Ok([ArchiveUrl(GithubSite, GithubMarker, tool, repo, tag)]), [])
  }

  /** `GitlabSourceFinder.Find`. */
  function GitlabSourceFind(tool: string, repo: string, tag: string): (run: Run<seq<Url>>)
    ensures run.result.Ok? && |run.result.value| == 1
    ensures run.result.value[0] == ArchiveUrl(GitlabSite, GitlabMarker, tool, repo, tag)
    ensures run.requests == []
  {
    Run(Ok([ArchiveUrl(GitlabSite, GitlabMarker, tool, repo, tag)]), [])
  }

  predicate HasSuffix(s: string, suffix: string) {
    |suffix| <= |s| && s[|s| - |suffix|..] == suffix
  }

  /** The position of the last `/` in `s`, if any. */
  function LastSlash(s: string): (r: Option<nat>)
    ensures r.Some? ==> r.value < |s| && s[r.value] == '/' && forall j :: r.value < j < |s| ==> s[j] != '/'
    ensures r.None? ==> forall j :: 0 <= j < |s| ==> s[j] != '/'
  {
    if |s| == 0 then None
    else if s[|s| - 1] == '/' then Some(|s| - 1)
    else LastSlash(s[..|s| - 1])
  }

  /** Reads `(repo, tag, tool)` back from an archive URL of the given site
      and marker, taking tag and tool to be single path segments. */
  function ParseArchiveUrl(site: string, marker: string, url: Url): Option<(string, string, string)> {
    if !HasPrefix(url, site) || !HasSuffix(url, Extension) || |url| < |site| + |Extension| then None
    else
      var middle := url[|site|..|url| - |Extension|];
      match LastSlash(middle)
      case None => None
      case Some(k) =>
        var (rest, tool) := (middle[..k], middle[k + 1..]);
        match LastSlash(rest)
        case None => None
        case Some(m) =>
          var (head, tag) := (rest[..m], rest[m + 1..]);
          if HasSuffix(head, marker) then Some((head[..|head| - |marker|], tag, tool)) else None
  }

  /** A `/` with none after it is the last one. */
  lemma LastSlashAt(s: string, k: nat)
    requires k < |s| && s[k] == '/'
    requires forall j :: k < j < |s| ==> s[j] != '/'
    ensures LastSlash(s) == Some(k)
  {
  }

  /** The last `/` of `a + "/" + b` is the one spliced in when `b` has none. */
  lemma {:induction false} LastSlashOfSplice(a: string, b: string)
    requires forall j :: 0 <= j < |b| ==> b[j] != '/'
    ensures LastSlash(a + "/" + b) == Some(|a|)
  {
    var s := a + "/" + b;
    forall j | |a| < j < |s|
      ensures s[j] != '/'
    {
      assert s[j] == b[j - |a| - 1];
    }
    LastSlashAt(s, |a|);
  }

  /** An archive URL starts with its site and ends with the extension;
      between them lies `<repo><marker>/<tag>/<tool>`. */
  lemma ArchiveUrlFrame(site: string, marker: string, tool: string, repo: string, tag: string)
    ensures var url := ArchiveUrl(site, marker, tool, repo, tag);
      HasPrefix(url, site) && HasSuffix(url, Extension) && |url| >= |site| + |Extension|
      && url[|site|..|url| - |Extension|] == repo + marker + "/" + tag + "/" + tool
  {
    var url := ArchiveUrl(site, marker, tool, repo, tag);
    var middle := repo + marker + "/" + tag + "/" + tool;
    assert url == site + middle + Extension;
    assert url[..|site|] == site;
    assert url[|url| - |Extension|..] == Extension;
    assert url[|site|..|url| - |Extension|] == middle;
  }

  /** Splitting `a + "/" + b` at its last `/` gives back `a` and `b` when
      `b` holds no `/`. */
  lemma SplitAtLastSlash(a: string, b: string)
    requires forall j :: 0 <= j < |b| ==> b[j] != '/'
    ensures LastSlash(a + "/" + b) == Some(|a|)
    ensures (a + "/" + b)[..|a|] == a && (a + "/" + b)[|a| + 1..] == b
  {
    LastSlashOfSplice(a, b);
    var s := a + "/" + b;
    assert s[..|a|] == a;
    assert s[|a| + 1..] == b;
  }

  /** The archive URL determines project, tag and tool whenever tag and
      tool are single path segments: parsing it gives them back. */
  lemma ParseArchiveRoundTrip(site: string, marker: string, tool: string, repo: string, tag: string)
    requires forall j :: 0 <= j < |tag| ==> tag[j] != '/'
    requires forall j :: 0 <= j < |tool| ==> tool[j] != '/'
    ensures ParseArchiveUrl(site, marker, ArchiveUrl(site, marker, tool, repo, tag)) == Some((repo, tag, tool))
  {
    var head := repo + marker;
    var rest := head + "/" + tag;
    ArchiveUrlFrame(site, marker, tool, repo, tag);
    SplitAtLastSlash(rest, tool);
    SplitAtLastSlash(head, tag);
    assert head[|head| - |marker|..] == marker;
    assert head[..|head| - |marker|] == repo;
  }

  /** Two GitHub archive URLs are equal only for the same project, tag and
      tool (tags and tools being single path segments). */
  lemma GithubArchiveInjective(tool: string, repo: string, tag: string, tool': string, repo': string, tag': string)
    requires forall j :: 0 <= j < |tag| ==> tag[j] != '/'
    requires forall j :: 0 <= j < |tool| ==> tool[j] != '/'
    requires forall j :: 0 <= j < |tag'| ==> tag'[j] != '/'
    requires forall j :: 0 <= j < |tool'| ==> tool'[j] != '/'
    requires ArchiveUrl(GithubSite, GithubMarker, tool, repo, tag) == ArchiveUrl(GithubSite, GithubMarker, tool', repo', tag')
    ensures tool == tool' && repo == repo' && tag == tag'
  {
    ParseArchiveRoundTrip(GithubSite, GithubMarker, tool, repo, tag);
    ParseArchiveRoundTrip(GithubSite, GithubMarker, tool', repo', tag');
  }

  /** Two GitLab archive URLs are equal only for the same project, tag and
      tool (tags and tools being single path segments). */
  lemma GitlabArchiveInjective(tool: string, repo: string, tag: string, tool': string, repo': string, tag': string)
    requires forall j :: 0 <= j < |tag| ==> tag[j] != '/'
    requires forall j :: 0 <= j < |tool| ==> tool[j] != '/'
    requires forall j :: 0 <= j < |tag'| ==> tag'[j] != '/'
    requires forall j :: 0 <= j < |tool'| ==> tool'[j] != '/'
    requires ArchiveUrl(GitlabSite, GitlabMarker, tool, repo, tag) == ArchiveUrl(GitlabSite, GitlabMarker, tool', repo', tag')
    ensures tool == tool' && repo == repo' && tag == tag'
  {
    ParseArchiveRoundTrip(GitlabSite, GitlabMarker, tool, repo, tag);
    ParseArchiveRoundTrip(GitlabSite, GitlabMarker, tool', repo', tag');
  }
}

=== FILE: errors.dfy ===
/** How each failure of a finder reads as text: the `Error()` methods of
    `GithubError` and `GitlabError`, the no-upgrade sentinel, and the
    formatted errors of the finders. */
module Errors {
  import opened Strings
  import opened Api

  /** The `message` and `documentation_url` fields decoded from an error
      body; any other body leaves both empty, as decoding into Go's zero
      struct does. */
  function ErrorFields(body: Body): (fields: (string, string))
    ensures body.ErrorDoc? ==> fields == (body.message, body.doc)
    ensures !body.ErrorDoc? ==> fields == ("", "")
  {
    if body.ErrorDoc? then (body.message, body.doc) else ("", "")
  }

  /** `"<status> (URL: <url>)"`, the rendering both platforms share. */
  function StatusAndUrl(e: PlatformError): (text: string)
    ensures HasPrefix(text, e.status)
    ensures Contains(text, e.url)
  {
    InfixContained(e.status + " (URL: ", e.url, ")");
    var text := e.status + " (URL: " + e.url + ")";
    assert text[..|e.status|] == e.status;
    text
  }

  /** `GithubError.Error`: a 403 (rate limit or permission) is explained by
      the message and documentation link from its body; every other status
      names the request URL instead. */
  function GithubMessage(e: PlatformError): (text: string)
    ensures HasPrefix(text, e.status)
    ensures e.code == StatusForbidden ==>
      Contains(text, ErrorFields(e.body).0) && Contains(text, ErrorFields(e.body).1)
    ensures e.code != StatusForbidden ==> Contains(text, e.url)
  {
    if e.code == StatusForbidden then
      var (message, doc) := ErrorFields(e.body);
      InfixContained(e.status + ": ", message, ": " + doc);
      InfixContained(e.status + ": " + message + ": ", doc, "");
      var text := e.status + ": " + message + ": " + doc;
      assert text == e.status + ": " + message + ": " + doc + "";
      assert text == (e.status + ": ") + message + (": " + doc);
      assert text[..|e.status|] == e.status;
      text
    else StatusAndUrl(e)
  }

  /** `GitlabError.Error`: no status is special. */
  function GitlabMessage(e: PlatformError): (text: string)
    ensures HasPrefix(text, e.status)
    ensures Contains(text, e.url)
  {
    StatusAndUrl(e)
  }

  /** The two platforms render the same error identically exactly when its
      status is not 403. */
  lemma {:induction false} RenderingsAgreeUnlessForbidden(e: PlatformError)
    ensures GithubMessage(e) == GitlabMessage(e) <==> e.code != StatusForbidden
  {
    if e.code == StatusForbidden {
      var n := |e.status|;
      var (message, doc) := ErrorFields(e.body);
      assert GithubMessage(e)[n] == ':' by {
        assert GithubMessage(e) == e.status + ": " + message + ": " + doc;
      }
      assert GitlabMessage(e)[n] == ' ' by {
        assert GitlabMessage(e) == e.status + " (URL: " + e.url + ")";
      }
    }
  }

  /** Text of `ErrNoUpgrade`. */
  const NoUpgradeText := "requested release is not more recent than current version"

  /** The text of every failure a finder can return. */
  function Message(e: FindError): (text: string)
    ensures e.PreReleaseFinder? ==> HasPrefix(text, "pre-release finder: ")
    ensures e.NoMatch? ==> Contains(text, e.target)
    ensures e.InvalidTag? ==> Contains(text, e.tag)
  {
    match e
    case Transport(reason) => reason
    case Decode(reason) => reason
    case PreReleaseFinder(cause) =>
      var text := "pre-release finder: " + Message(cause);
      assert text[..20] == "pre-release finder: ";
      text
    case NoReleases => "no releases found"
    case Github(err) => GithubMessage(err)
    case Gitlab(err) => GitlabMessage(err)
    case NoUpgrade => NoUpgradeText
    case NoMatch(target) =>
      InfixContained("no matching tag for '", target, "'");
      "no matching tag for '" + target + "'"
    case InvalidTag(tag) =>
      InfixContained("asset finder: invalid tag format: ", tag, "");
      assert "asset finder: invalid tag format: " + tag + "" == "asset finder: invalid tag format: " + tag;
      "asset finder: invalid tag format: " + tag
  }
}

=== FILE: escape.dfy ===
/** Go's `url.QueryEscape`, which the GitLab finder applies to the project
    identifier and to the tag before placing them in a request path.
    Letters, digits and `-_.~` stay as they are, a space becomes `+`, and
    every other character is written as the `%XX` escapes (upper-case hex)
    of its UTF-8 bytes. */
module UrlEscape {

  /** Characters `QueryEscape` leaves untouched. */
  predicate Unreserved(c: char) {
    ('a' <= c <= 'z') || ('A' <= c <= 'Z') || ('0' <= c <= '9')
    || c == '-' || c == '_' || c == '.' || c == '~'
  }

  predicate IsUpperHex(c: char) {
    ('0' <= c <= '9') || ('A' <= c <= 'F')
  }

  /** A character that may appear in the output of `QueryEscape`. */
  predicate EscapedChar(c: char) {
    Unreserved(c) || c == '+' || c == '%'
  }

  /** The UTF-8 encoding of one Unicode scalar value. */
  function Utf8(c: char): (bytes: seq<nat>)
    ensures 1 <= |bytes| <= 4
    ensures (c as int < 0x80) <==> |bytes| == 1
    ensures |bytes| == 1 ==> bytes[0] == c as int
  {
    var n := c as int;
    if n < 0x80 then [n]
    else if n < 0x800 then [0xC0 + n / 0x40, 0x80 + n % 0x40]
    else if n < 0x1_0000 then [0xE0 + n / 0x1000, 0x80 + n / 0x40 % 0x40, 0x80 + n % 0x40]
    else [0xF0 + n / 0x4_0000, 0x80 + n / 0x1000 % 0x40, 0x80 + n / 0x40 % 0x40, 0x80 + n % 0x40]
  }

  function HexDigit(d: nat): (c: char)
    requires d < 16
    ensures IsUpperHex(c)
  {
    "0123456789ABCDEF"[d]
  }

  /** `%XX` for each byte, the two hex digits upper-case. */
  function PercentBytes(bytes: seq<nat>): (r: string)
    ensures |r| == 3 * |bytes|
    ensures forall i :: 0 <= i < |r| ==> (if i % 3 == 0 then r[i] == '%' else IsUpperHex(r[i]))
  {
    if |bytes| == 0 then []
    else
      var head := ['%', HexDigit(bytes[0] / 16 % 16), HexDigit(bytes[0] % 16)];
      var tail := PercentBytes(bytes[1..]);
      assert forall i :: 3 <= i < 3 + |tail| ==> (head + tail)[i] == tail[i - 3];
      head + tail
  }

  function EscapeChar(c: char): (r: string)
    ensures 1 <= |r|
    ensures forall i :: 0 <= i < |r| ==> EscapedChar(r[i])
  {
    if Unreserved(c) then [c]
    else if c == ' ' then "+"
    else PercentBytes(Utf8(c))
  }

  /** Go's `url.QueryEscape`. */
  function QueryEscape(s: string): (r: string)
    ensures |s| <= |r| <= 12 * |s|
    ensures forall i :: 0 <= i < |r| ==> EscapedChar(r[i])
  {
    if |s| == 0 then []
    else
      var head := EscapeChar(s[0]);
      var tail := QueryEscape(s[1..]);
      assert forall i :: |head| <= i < |head| + |tail| ==> (head + tail)[i] == tail[i - |head|];
      head + tail
  }

  /** The escaped text is a single path segment: it holds no `/`, `?`, `#`
      or space, whatever the input held. */
  lemma EscapedIsOneSegment(s: string)
    ensures forall i :: 0 <= i < |QueryEscape(s)| ==>
      QueryEscape(s)[i] !in {'/', '?', '#', ' '}
  {
  }

  /** Text made only of unreserved characters is passed through unchanged. */
  lemma {:induction false} UnreservedUnchanged(s: string)
    requires forall i :: 0 <= i < |s| ==> Unreserved(s[i])
    ensures QueryEscape(s) == s
  {
    if |s| > 0 {
      UnreservedUnchanged(s[1..]);
      assert s == [s[0]] + s[1..];
    }
  }

  /** Escaping distributes over concatenation, character by character. */
  lemma {:induction false} EscapeAppend(a: string, b: string)
    ensures QueryEscape(a + b) == QueryEscape(a) + QueryEscape(b)
  {
    if |a| > 0 {
      assert (a + b)[1..] == a[1..] + b;
      EscapeAppend(a[1..], b);
    } else {
      assert a + b == b;
    }
  }

  lemma SlashEscape()
    ensures QueryEscape("/") == "%2F"
  {
    assert Utf8('/') == [0x2F];
    var hex := PercentBytes([0x2F]);
    assert hex == ['%', HexDigit(2), HexDigit(15)] + PercentBytes([]);
    assert EscapeChar('/') == "%2F";
    assert "/"[1..] == [];
    assert QueryEscape("/") == EscapeChar('/') + QueryEscape([]);
  }

  /** A GitLab project path `owner/name` keeps its two halves and has its
      separator written as `%2F`. */
  lemma SlashEscaped(owner: string, name: string)
    requires forall i :: 0 <= i < |owner| ==> Unreserved(owner[i])
    requires forall i :: 0 <= i < |name| ==> Unreserved(name[i])
    ensures QueryEscape(owner + "/" + name) == owner + "%2F" + name
  {
    EscapeAppend(owner + "/", name);
    EscapeAppend(owner, "/");
    UnreservedUnchanged(owner);
    UnreservedUnchanged(name);
    SlashEscape();
  }
}

=== FILE: finders.dfy ===
/** The `Finder` interface: one operation, `Find`, implemented by five
    finders. Each finder holds only the fields it was built with. */
module Finders {
  import opened Strings
  import opened Api
  import Github
  import Gitlab
  import Archive

  datatype Finder =
    | Direct(url: Url)
    | GithubSource(tool: string, repo: string, tag: string)
    | GitlabSource(tool: string, repo: string, tag: string)
    | GithubAssets(query: AssetQuery)
    | GitlabAssets(query: AssetQuery)

  /** A finder that answers without the API. */
  predicate IsLeaf(f: Finder) {
    f.Direct? || f.GithubSource? || f.GitlabSource?
  }

  /** What `Find` needs of the API: should the GitHub finder fall back to
      its search, the search stops by page `stop`. */
  ghost predicate Serves(f: Finder, api: Api, stop: nat) {
    f.GithubAssets? ==> Github.FindEnds(f.query, api, stop)
  }

  /** `Finder.Find`, dispatched on the finder. */
  function Find(f: Finder, api: Api, ghost stop: nat): (run: Run<seq<Url>>)
    requires Serves(f, api, stop)
    ensures IsLeaf(f) ==> run.requests == [] && run.result.Ok? && |run.result.value| == 1
    ensures f.GitlabAssets? ==> |run.requests| <= 2
  {
    match f
    case Direct(url) => Archive.DirectFind(url)
    case GithubSource(tool, repo, tag) => Archive.GithubSourceFind(tool, repo, tag)
    case GitlabSource(tool, repo, tag) => Archive.GitlabSourceFind(tool, repo, tag)
    case GithubAssets(q) => Github.Find(q, api, stop)
    case GitlabAssets(q) => Gitlab.Find(q, api)
  }

  /** A leaf finder's answer does not depend on the API at all. */
  lemma LeafIgnoresApi(f: Finder, api: Api, api': Api, stop: nat, stop': nat)
    requires IsLeaf(f)
    ensures Find(f, api, stop) == Find(f, api', stop')
  {
  }

  /** The two release finders part ways on a 404 for an exact tag: GitHub
      goes on to request the first page of its listing, GitLab fails at once
      with the no-match error after its single request. */
  lemma NotFoundAsymmetry(q: AssetQuery, name: string, api: Api, stop: nat)
    requires q.tag == TagsPrefix + name
    requires Github.EndsBy(q, name, api, stop)
    requires api(Github.ReleaseUrl(q.repo, q.tag)).Reply?
    requires api(Github.ReleaseUrl(q.repo, q.tag)).code == StatusNotFound
    requires !api(Github.ReleaseUrl(q.repo, q.tag)).body.Unreadable?
    requires api(Gitlab.TagUrl(q.repo, name)).Reply?
    requires api(Gitlab.TagUrl(q.repo, name)).code == StatusNotFound
    requires !api(Gitlab.TagUrl(q.repo, name)).body.Unreadable?
    ensures Serves(GithubAssets(q), api, stop)
    ensures var run := Find(GithubAssets(q), api, stop);
      |run.requests| >= 2 && run.requests[1] == Github.PageUrl(q.repo, 1)
    ensures Find(GitlabAssets(q), api, stop) == Run(Err(NoMatch(name)), [Gitlab.TagUrl(q.repo, name)])
  {
    ParseRender(Tagged(name));
    LatestNotTagged();
    assert q.tag != Latest by {
      assert q.tag[0] == 't';
    }
  }
}

=== FILE: github.dfy ===
/** `GithubAssetFinder`: a direct lookup of the release for a selector and,
    when an exact tag is not found, a paginated scan of all releases for one
    whose tag contains the requested text. */
module Github {
  import opened Strings
  import opened Api
  import Prerelease

  const ApiRoot := "https://api.github.com/repos/"

  /** GitHub lists this many releases on a full page. */
  const PageSize := 30

  /** The direct lookup: `<root><repo>/releases/<selector>`; neither part
      is escaped. */
  function ReleaseUrl(repo: string, tag: string): Url {
    ApiRoot + repo + "/releases/" + tag
  }

  /** The unpaged listing `getLatestTag` reads. */
  function ListUrl(repo: string): Url {
    ApiRoot + repo + "/releases"
  }

  /** Page `page` of the listing the fallback search reads. */
  function PageUrl(repo: string, page: nat): Url {
    ApiRoot + repo + "/releases?page=" + Decimal(page)
  }

  /** A page after which the search is asked to go on: a successful reply
      holding at least `PageSize` releases. */
  predicate FullPage(resp: Response) {
    resp.Reply? && resp.code == StatusOK && resp.body.ListDoc?
    && |resp.body.releases| >= PageSize
  }

  /** The three tests of the fallback search: a prerelease only when
      prereleases are wanted, a tag containing the target, and a creation
      time not before the floor. */
  predicate Accepts(q: AssetQuery, target: string, r: Release) {
    (q.prerelease || !r.prerelease)
    && Contains(r.tag, target)
    && !Before(r.createdAt, q.minTime)
  }

  /** `i` is the first release of `rs` the search accepts. */
  predicate FirstAt(q: AssetQuery, target: string, rs: seq<Release>, i: int) {
    0 <= i < |rs| && Accepts(q, target, rs[i])
    && forall j :: 0 <= j < i ==> !Accepts(q, target, rs[j])
  }

  /** The scan over one page, in listing order, from index `from`. */
  function FirstAccepted(q: AssetQuery, target: string, rs: seq<Release>, from: nat): (r: Option<nat>)
    requires from <= |rs|
    requires forall j :: 0 <= j < from ==> !Accepts(q, target, rs[j])
    ensures r.Some? ==> FirstAt(q, target, rs, r.value)
    ensures r.None? ==> forall j :: 0 <= j < |rs| ==> !Accepts(q, target, rs[j])
    decreases |rs| - from
  {
    if from == |rs| then None
    else if Accepts(q, target, rs[from]) then Some(from)
    else FirstAccepted(q, target, rs, from + 1)
  }

  /** A page the search reads past: full, and nothing on it accepted. */
  predicate Skipped(q: AssetQuery, target: string, resp: Response) {
    FullPage(resp)
    && forall j :: 0 <= j < |resp.body.releases| ==> !Accepts(q, target, resp.body.releases[j])
  }

  /** The search for `target` stops by page `stop`: that page is one it does
      not read past. The source's loop runs forever exactly on the listings
      where no page is such a page. */
  ghost predicate EndsBy(q: AssetQuery, target: string, api: Api, stop: nat) {
    1 <= stop && !Skipped(q, target, api(PageUrl(q.repo, stop)))
  }

  /** How the search ends on the page at `url` answered with `resp`: a
      failed request or read, a platform error for any status but 200, a
      decode failure, the assets of the first accepted release, or - on a
      short page with nothing accepted - the no-match error. */
  ghost predicate Concludes(q: AssetQuery, target: string, resp: Response, url: Url, result: Result<seq<Url>>) {
    match resp
    case TransportFailure(reason) => result == Err(Transport(reason))
    case Reply(code, status, body) =>
      if body.Unreadable? then result == Err(Transport(body.reason))
      else if code != StatusOK then result == Err(Github(PlatformError(code, status, body, url)))
      else if !body.ListDoc? then result.Err? && result.error.Decode?
      else
        var rs := body.releases;
        (result.Ok? ==> exists i :: FirstAt(q, target, rs, i) && result.value == rs[i].assets)
        && (result.Err? ==>
              |rs| < PageSize && result == Err(NoMatch(target))
              && forall j :: 0 <= j < |rs| ==> !Accepts(q, target, rs[j]))
  }

  /** The search from page `page` on: it requests consecutive pages, reads
      past every one it does not conclude on, and concludes on the last. */
  function SearchPages(q: AssetQuery, target: string, api: Api, ghost stop: nat, page: nat): (run: Run<seq<Url>>)
    requires 1 <= page <= stop
    requires EndsBy(q, target, api, stop)
    ensures 1 <= |run.requests| <= stop + 1 - page
    ensures forall j :: 0 <= j < |run.requests| ==> run.requests[j] == PageUrl(q.repo, page + j)
    ensures forall p :: page <= p < page + |run.requests| - 1 ==>
      Skipped(q, target, api(PageUrl(q.repo, p)))
    ensures Concludes(q, target, api(PageUrl(q.repo, page + |run.requests| - 1)),
                      PageUrl(q.repo, page + |run.requests| - 1), run.result)
    decreases stop - page
  {
    var url := PageUrl(q.repo, page);
    match api(url)
    case TransportFailure(reason) => Run(Err(Transport(reason)), [url])
    case Reply(code, status, body) =>
      if code != StatusOK then
        if body.Unreadable? then Run(Err(Transport(body.reason)), [url])
        else Run(Err(Github(PlatformError(code, status, body, url))), [url])
      else
        match DecodeList(body)
        case Err(e) => Run(Err(e), [url])
        case Ok(releases) =>
          match FirstAccepted(q, target, releases, 0)
          case Some(i) => Run(Ok(releases[i].assets), [url])
          case None =>
            if |releases| < PageSize then Run(Err(NoMatch(target)), [url])
            else
              assert Skipped(q, target, api(url));
              var rest := SearchPages(q, target, api, stop, page + 1);
              Run(rest.result, [url] + rest.requests)
  }

  /** `FindMatch`: the fallback search for `target`, from page 1. */
  function FindMatch(q: AssetQuery, target: string, api: Api, ghost stop: nat): (run: Run<seq<Url>>)
    requires EndsBy(q, target, api, stop)
    ensures 1 <= |run.requests| <= stop
    ensures forall j :: 0 <= j < |run.requests| ==> run.requests[j] == PageUrl(q.repo, j + 1)
    ensures forall p :: 1 <= p < |run.requests| ==> Skipped(q, target, api(PageUrl(q.repo, p)))
    ensures Concludes(q, target, api(PageUrl(q.repo, |run.requests|)), PageUrl(q.repo, |run.requests|), run.result)
  {
    SearchPages(q, target, api, stop, 1)
  }

  /** The direct lookup falls back to the search: a 404, with a readable
      body, for an exact-tag selector. */
  predicate FallsBack(q: AssetQuery, api: Api) {
    var resp := api(ReleaseUrl(q.repo, q.tag));
    resp.Reply? && resp.code == StatusNotFound && !resp.body.Unreadable? && HasPrefix(q.tag, TagsPrefix)
  }

  /** What the lookup needs of the API: if it falls back, the search ends. */
  ghost predicate LookupEnds(q: AssetQuery, api: Api, stop: nat) {
    FallsBack(q, api) ==> EndsBy(q, q.tag[|TagsPrefix|..], api, stop)
  }

  /** The direct lookup of the selector `q.tag`, falling back to the search
      when GitHub does not know an exact tag. */
  function Lookup(q: AssetQuery, api: Api, ghost stop: nat): (run: Run<seq<Url>>)
    requires LookupEnds(q, api, stop)
    ensures 1 <= |run.requests| && run.requests[0] == ReleaseUrl(q.repo, q.tag)
    ensures !FallsBack(q, api) ==> |run.requests| == 1
    ensures FallsBack(q, api) ==>
      forall j :: 1 <= j < |run.requests| ==> run.requests[j] == PageUrl(q.repo, j)
    ensures run.result.Ok? && !FallsBack(q, api) ==>
      var resp := api(ReleaseUrl(q.repo, q.tag));
      resp.Reply? && resp.code == StatusOK && DecodeRelease(resp.body).Ok?
      && !Before(DecodeRelease(resp.body).value.createdAt, q.minTime)
      && run.result.value == DecodeRelease(resp.body).value.assets
  {
    var url := ReleaseUrl(q.repo, q.tag);
    match api(url)
    case TransportFailure(reason) => Run(Err(Transport(reason)), [url])
    case Reply(code, status, body) =>
      if code != StatusOK then
        if body.Unreadable? then Run(Err(Transport(body.reason)), [url])
        else if HasPrefix(q.tag, TagsPrefix) && code == StatusNotFound then
          var search := FindMatch(q, q.tag[|TagsPrefix|..], api, stop);
          Run(search.result, [url] + search.requests)
        else Run(Err(Github(PlatformError(code, status, body, url))), [url])
      else
        match DecodeRelease(body)
        case Err(e) => Run(Err(e), [url])
        case Ok(release) => Run(Recent(release, q.minTime), [url])
  }

  /** What the finder needs of the API: if the lookup of the settled
      selector falls back, the search ends. */
  ghost predicate FindEnds(q: AssetQuery, api: Api, stop: nat) {
    var pinned := Prerelease.ResolveTag(q, api, ListUrl(q.repo));
    pinned.result.Ok? ==> LookupEnds(q.(tag := pinned.result.value), api, stop)
  }

  /** `GithubAssetFinder.Find`. */
  function Find(q: AssetQuery, api: Api, ghost stop: nat): (run: Run<seq<Url>>)
    requires FindEnds(q, api, stop)
    ensures 1 <= |run.requests|
    ensures q.prerelease && q.tag == Latest ==> run.requests[0] == ListUrl(q.repo)
    ensures !(q.prerelease && q.tag == Latest) ==> run.requests[0] == ReleaseUrl(q.repo, q.tag)
    ensures run.result == Err(NoReleases) ==> run.requests == [ListUrl(q.repo)]
  {
    var pinned := Prerelease.ResolveTag(q, api, ListUrl(q.repo));
    match pinned.result
    case Err(e) => Run(Err(e), pinned.requests)
    case Ok(tag) =>
      var lookup := Lookup(q.(tag := tag), api, stop);
      Run(lookup.result, pinned.requests + lookup.requests)
  }
}

/** What the GitHub finder promises, stated over the scripted API. */
module GithubFacts {
  import opened Strings
  import opened Api
  import Prerelease
  import opened Github

  /** The three request shapes never coincide: the direct lookup (whatever
      its selector), a page of the listing, and the unpaged listing; and
      different page numbers give different page URLs. */
  lemma UrlsDistinct(repo: string, tag: string, m: nat, n: nat)
    ensures ReleaseUrl(repo, tag) != PageUrl(repo, n)
    ensures ListUrl(repo) != ReleaseUrl(repo, tag) && ListUrl(repo) != PageUrl(repo, n)
    ensures PageUrl(repo, m) == PageUrl(repo, n) ==> m == n
  {
    var k := |ListUrl(repo)|;
    assert ReleaseUrl(repo, tag)[k] == '/';
    assert PageUrl(repo, n)[k] == '?';
    if PageUrl(repo, m) == PageUrl(repo, n) {
      var head := ListUrl(repo) + "?page=";
      assert PageUrl(repo, m)[|head|..] == Decimal(m);
      assert PageUrl(repo, n)[|head|..] == Decimal(n);
      DecimalInjective(m, n);
    }
  }

  /** The first accepted release of a page is unique. */
  lemma FirstAtUnique(q: AssetQuery, target: string, rs: seq<Release>, i: int, k: int)
    requires FirstAt(q, target, rs, i) && FirstAt(q, target, rs, k)
    ensures i == k
  {
  }

  /** A page the search concludes on is not one it would read past. */
  lemma ConcludedNotSkipped(q: AssetQuery, target: string, resp: Response, url: Url, result: Result<seq<Url>>)
    requires Concludes(q, target, resp, url, result)
    ensures !Skipped(q, target, resp)
  {
    if resp.Reply? && !resp.body.Unreadable? && resp.code == StatusOK && resp.body.ListDoc? && result.Ok? {
      var i :| FirstAt(q, target, resp.body.releases, i) && result.value == resp.body.releases[i].assets;
      assert Accepts(q, target, resp.body.releases[i]);
    }
  }

  /** The search is decided by the first page it cannot read past: it
      requests exactly pages 1 to `p`, in order, and concludes on page `p`;
      no later page is requested. */
  lemma {:induction false} DecidedAtFirstUnskipped(q: AssetQuery, target: string, api: Api, stop: nat, p: nat)
    requires EndsBy(q, target, api, stop)
    requires 1 <= p
    requires forall k :: 1 <= k < p ==> Skipped(q, target, api(PageUrl(q.repo, k)))
    requires !Skipped(q, target, api(PageUrl(q.repo, p)))
    ensures |FindMatch(q, target, api, stop).requests| == p
    ensures forall j :: 0 <= j < p ==> FindMatch(q, target, api, stop).requests[j] == PageUrl(q.repo, j + 1)
    ensures Concludes(q, target, api(PageUrl(q.repo, p)), PageUrl(q.repo, p),
                      FindMatch(q, target, api, stop).result)
  {
    var run := FindMatch(q, target, api, stop);
    var k := |run.requests|;
    ConcludedNotSkipped(q, target, api(PageUrl(q.repo, k)), PageUrl(q.repo, k), run.result);
    if k > p {
      assert false;
    }
  }

  /** First match wins: when pages before `p` hold nothing acceptable and
      release `i` is the first acceptable one on page `p`, the search
      returns exactly its assets, having requested pages 1 to `p`. */
  lemma FirstMatchWins(q: AssetQuery, target: string, api: Api, stop: nat, p: nat, i: nat)
    requires EndsBy(q, target, api, stop)
    requires 1 <= p
    requires forall k :: 1 <= k < p ==> Skipped(q, target, api(PageUrl(q.repo, k)))
    requires api(PageUrl(q.repo, p)).Reply? && api(PageUrl(q.repo, p)).code == StatusOK
    requires api(PageUrl(q.repo, p)).body.ListDoc?
    requires FirstAt(q, target, api(PageUrl(q.repo, p)).body.releases, i)
    ensures FindMatch(q, target, api, stop).result == Ok(api(PageUrl(q.repo, p)).body.releases[i].assets)
    ensures |FindMatch(q, target, api, stop).requests| == p
  {
    var rs := api(PageUrl(q.repo, p)).body.releases;
    DecidedAtFirstUnskipped(q, target, api, stop, p);
    var run := FindMatch(q, target, api, stop);
    if run.result.Ok? {
      var k :| FirstAt(q, target, rs, k) && run.result.value == rs[k].assets;
      FirstAtUnique(q, target, rs, i, k);
    }
  }

  /** A short page with nothing acceptable ends the search with the
      no-match error naming the target; no further page is requested. */
  lemma ShortPageEndsSearch(q: AssetQuery, target: string, api: Api, stop: nat, p: nat)
    requires EndsBy(q, target, api, stop)
    requires 1 <= p
    requires forall k :: 1 <= k < p ==> Skipped(q, target, api(PageUrl(q.repo, k)))
    requires api(PageUrl(q.repo, p)).Reply? && api(PageUrl(q.repo, p)).code == StatusOK
    requires api(PageUrl(q.repo, p)).body.ListDoc?
    requires |api(PageUrl(q.repo, p)).body.releases| < PageSize
    requires forall j :: 0 <= j < |api(PageUrl(q.repo, p)).body.releases| ==>
      !Accepts(q, target, api(PageUrl(q.repo, p)).body.releases[j])
    ensures FindMatch(q, target, api, stop).result == Err(NoMatch(target))
    ensures |FindMatch(q, target, api, stop).requests| == p
  {
    DecidedAtFirstUnskipped(q, target, api, stop, p);
    var rs := api(PageUrl(q.repo, p)).body.releases;
    var run := FindMatch(q, target, api, stop);
    if run.result.Ok? {
      assert false;
    }
  }

  /** A page answered with any status but 200 aborts the search with a
      GitHub error for that page's URL; no further page is requested. */
  lemma ErrorPageAbortsSearch(q: AssetQuery, target: string, api: Api, stop: nat, p: nat)
    requires EndsBy(q, target, api, stop)
    requires 1 <= p
    requires forall k :: 1 <= k < p ==> Skipped(q, target, api(PageUrl(q.repo, k)))
    requires api(PageUrl(q.repo, p)).Reply? && api(PageUrl(q.repo, p)).code != StatusOK
    requires !api(PageUrl(q.repo, p)).body.Unreadable?
    ensures FindMatch(q, target, api, stop).result ==
      Err(Github(PlatformError(api(PageUrl(q.repo, p)).code, api(PageUrl(q.repo, p)).status,
                               api(PageUrl(q.repo, p)).body, PageUrl(q.repo, p))))
    ensures |FindMatch(q, target, api, stop).requests| == p
  {
    DecidedAtFirstUnskipped(q, target, api, stop, p);
  }

  /** A failed request, a failed read or a body that does not decode aborts
      the search with that failure; no further page is requested. */
  lemma FailureAbortsSearch(q: AssetQuery, target: string, api: Api, stop: nat, p: nat)
    requires EndsBy(q, target, api, stop)
    requires 1 <= p
    requires forall k :: 1 <= k < p ==> Skipped(q, target, api(PageUrl(q.repo, k)))
    requires api(PageUrl(q.repo, p)).TransportFailure?
      || (api(PageUrl(q.repo, p)).code == StatusOK && !api(PageUrl(q.repo, p)).body.ListDoc?)
    ensures api(PageUrl(q.repo, p)).TransportFailure? ==>
      FindMatch(q, target, api, stop).result == Err(Transport(api(PageUrl(q.repo, p)).reason))
    ensures api(PageUrl(q.repo, p)).Reply? && api(PageUrl(q.repo, p)).body.Unreadable? ==>
      FindMatch(q, target, api, stop).result == Err(Transport(api(PageUrl(q.repo, p)).body.reason))
    ensures api(PageUrl(q.repo, p)).Reply? && !api(PageUrl(q.repo, p)).body.Unreadable? ==>
      FindMatch(q, target, api, stop).result.Err?
      && FindMatch(q, target, api, stop).result.error.Decode?
    ensures |FindMatch(q, target, api, stop).requests| == p
  {
    DecidedAtFirstUnskipped(q, target, api, stop, p);
  }

  /** The search reports an old release by skipping it, never with the
      no-upgrade sentinel. */
  lemma SearchNeverNoUpgrade(q: AssetQuery, target: string, api: Api, stop: nat)
    requires EndsBy(q, target, api, stop)
    ensures FindMatch(q, target, api, stop).result != Err(NoUpgrade)
  {
  }

  /** The direct lookup is the first request made once the selector is
      settled; a success reply decides the result on its own. */
  lemma LookupSuccess(q: AssetQuery, api: Api, stop: nat, r: Release)
    requires LookupEnds(q, api, stop)
    requires api(ReleaseUrl(q.repo, q.tag)).Reply? && api(ReleaseUrl(q.repo, q.tag)).code == StatusOK
    requires api(ReleaseUrl(q.repo, q.tag)).body == ReleaseDoc(r)
    ensures Lookup(q, api, stop).requests == [ReleaseUrl(q.repo, q.tag)]
    ensures Before(r.createdAt, q.minTime) ==> Lookup(q, api, stop).result == Err(NoUpgrade)
    ensures !Before(r.createdAt, q.minTime) ==> Lookup(q, api, stop).result == Ok(r.assets)
  {
  }

  /** A failure reply to the direct lookup: 404 for an exact tag falls back
      to the search for that tag after the one lookup request; any other
      status - a 404 for `"latest"` among them - is a GitHub error carrying
      the status, body and lookup URL. A body that cannot be read fails
      before the status is examined. */
  lemma LookupFailureStatus(q: AssetQuery, api: Api, stop: nat)
    requires LookupEnds(q, api, stop)
    requires api(ReleaseUrl(q.repo, q.tag)).Reply? && api(ReleaseUrl(q.repo, q.tag)).code != StatusOK
    ensures var resp := api(ReleaseUrl(q.repo, q.tag));
      var run := Lookup(q, api, stop);
      run.requests[0] == ReleaseUrl(q.repo, q.tag)
      && (resp.body.Unreadable? ==> run == Run(Err(Transport(resp.body.reason)), [ReleaseUrl(q.repo, q.tag)]))
      && (!resp.body.Unreadable? && resp.code == StatusNotFound && HasPrefix(q.tag, TagsPrefix) ==>
            run.result == FindMatch(q, q.tag[|TagsPrefix|..], api, stop).result
            && run.requests == [ReleaseUrl(q.repo, q.tag)] + FindMatch(q, q.tag[|TagsPrefix|..], api, stop).requests)
      && (!resp.body.Unreadable? && !(resp.code == StatusNotFound && HasPrefix(q.tag, TagsPrefix)) ==>
            run == Run(Err(Github(PlatformError(resp.code, resp.status, resp.body, ReleaseUrl(q.repo, q.tag)))),
                       [ReleaseUrl(q.repo, q.tag)]))
  {
  }

  /** A failed direct lookup request is passed on unchanged. */
  lemma LookupTransportFailure(q: AssetQuery, api: Api, stop: nat)
    requires LookupEnds(q, api, stop)
    requires api(ReleaseUrl(q.repo, q.tag)).TransportFailure?
    ensures Lookup(q, api, stop) ==
      Run(Err(Transport(api(ReleaseUrl(q.repo, q.tag)).reason)), [ReleaseUrl(q.repo, q.tag)])
  {
  }

  /** A 200 reply to the direct lookup that holds no release: a failed read
      is a transport error, a list or malformed JSON a decode error, and an
      error object decodes to the zero release, which the floor then
      judges. No other request is made. */
  lemma LookupDecodeFailure(q: AssetQuery, api: Api, stop: nat)
    requires LookupEnds(q, api, stop)
    requires api(ReleaseUrl(q.repo, q.tag)).Reply? && api(ReleaseUrl(q.repo, q.tag)).code == StatusOK
    requires !api(ReleaseUrl(q.repo, q.tag)).body.ReleaseDoc?
    ensures Lookup(q, api, stop).requests == [ReleaseUrl(q.repo, q.tag)]
    ensures api(ReleaseUrl(q.repo, q.tag)).body.Unreadable? ==>
      Lookup(q, api, stop).result == Err(Transport(api(ReleaseUrl(q.repo, q.tag)).body.reason))
    ensures api(ReleaseUrl(q.repo, q.tag)).body.ListDoc? || api(ReleaseUrl(q.repo, q.tag)).body.Malformed? ==>
      Lookup(q, api, stop).result.Err? && Lookup(q, api, stop).result.error.Decode?
    ensures api(ReleaseUrl(q.repo, q.tag)).body.ErrorDoc? ==>
      Lookup(q, api, stop).result == Recent(ZeroRelease, q.minTime)
  {
  }

  /** Without the prerelease rewrite the finder is the direct lookup of its
      own selector. */
  lemma FindKeepsSelector(q: AssetQuery, api: Api, stop: nat)
    requires FindEnds(q, api, stop)
    requires !(q.prerelease && q.tag == Latest)
    ensures Find(q, api, stop) == Lookup(q, api, stop)
    ensures Find(q, api, stop).requests[0] == ReleaseUrl(q.repo, q.tag)
  {
  }

  /** A prerelease finder asking for `"latest"` first lists the releases.
      An empty or failed listing ends the search after that one request;
      otherwise the finder looks up `"tags/"` followed by the tag of the
      first listed release, prerelease or not. */
  lemma FindRewritesLatest(q: AssetQuery, api: Api, stop: nat)
    requires FindEnds(q, api, stop)
    requires q.prerelease && q.tag == Latest
    ensures Find(q, api, stop).requests[0] == ListUrl(q.repo)
    ensures Prerelease.Listed(api(ListUrl(q.repo))) == Ok([]) ==>
      Find(q, api, stop) == Run(Err(NoReleases), [ListUrl(q.repo)])
    ensures Prerelease.Listed(api(ListUrl(q.repo))).Err? ==>
      Find(q, api, stop) ==
        Run(Err(PreReleaseFinder(Prerelease.Listed(api(ListUrl(q.repo))).error)), [ListUrl(q.repo)])
    ensures Prerelease.Listed(api(ListUrl(q.repo))).Ok? && |Prerelease.Listed(api(ListUrl(q.repo))).value| > 0 ==>
      var pinned := TagsPrefix + Prerelease.Listed(api(ListUrl(q.repo))).value[0].tag;
      Find(q, api, stop) ==
        Run(Lookup(q.(tag := pinned), api, stop).result,
            [ListUrl(q.repo)] + Lookup(q.(tag := pinned), api, stop).requests)
  {
  }

  /** Whatever path the finder takes, a list of assets it returns is the
      asset list of a release the API served to its last request - the
      direct lookup, or the page the search concluded on - and that release
      was not created before the floor. */
  lemma FindReturnsFreshRelease(q: AssetQuery, api: Api, stop: nat)
    requires FindEnds(q, api, stop)
    ensures var run := Find(q, api, stop);
      run.result.Ok? ==>
        exists r :: ServedAt(api(run.requests[|run.requests| - 1]), r)
          && !Before(r.createdAt, q.minTime) && run.result.value == r.assets
  {
    var run := Find(q, api, stop);
    var pinned := Prerelease.ResolveTag(q, api, ListUrl(q.repo));
    if run.result.Ok? {
      var q' := q.(tag := pinned.result.value);
      var lookup := Lookup(q', api, stop);
      var url := ReleaseUrl(q.repo, q'.tag);
      assert run.requests == pinned.requests + lookup.requests;
      assert lookup.requests[0] == url;
      var resp := api(url);
      if resp.code == StatusOK {
        var r := DecodeRelease(resp.body).value;
        assert ServedAt(api(url), r);
        assert run.requests[|run.requests| - 1] == url;
      } else {
        var target := q'.tag[|TagsPrefix|..];
        assert FallsBack(q', api);
        var search := FindMatch(q', target, api, stop);
        var n := |search.requests|;
        var pageUrl := PageUrl(q.repo, n);
        var rs := api(pageUrl).body.releases;
        var i :| FirstAt(q', target, rs, i) && search.result.value == rs[i].assets;
        assert ServedAt(api(pageUrl), rs[i]);
        assert pageUrl == search.requests[n - 1];
        assert run.requests[|run.requests| - 1] == pageUrl;
      }
    }
  }
}

=== FILE: gitlab.dfy ===
/** `GitlabAssetFinder`: one lookup of the release for a selector, with the
    project identifier and the tag escaped into the request path. A tag
    GitLab does not know is not searched for. */
module Gitlab {
  import opened Strings
  import opened UrlEscape
  import opened Api
  import Prerelease

  const ApiRoot := "https://gitlab.com/api/v4/projects/"

  /** The project's API path, its identifier escaped into one segment. */
  function ProjectUrl(repo: string): Url {
    ApiRoot + QueryEscape(repo)
  }

  /** The listing `getLatestTag` reads. */
  function ListUrl(repo: string): Url {
    ProjectUrl(repo) + "/releases"
  }

  /** The permalink GitLab keeps for the latest release. */
  function LatestUrl(repo: string): Url {
    ProjectUrl(repo) + "/releases/permalink/latest"
  }

  /** The release carrying exactly tag `name`. */
  function TagUrl(repo: string, name: string): Url {
    ProjectUrl(repo) + "/releases/" + QueryEscape(name)
  }

  /** The lookup URL for a selector; a selector that is neither `"latest"`
      nor `"tags/<tag>"` has none. */
  function RequestUrl(repo: string, tag: string): (url: Option<Url>)
    ensures url.None? <==> tag != Latest && !HasPrefix(tag, TagsPrefix)
    ensures tag == Latest ==> url == Some(LatestUrl(repo))
    ensures HasPrefix(tag, TagsPrefix) ==> url == Some(TagUrl(repo, tag[|TagsPrefix|..]))
  {
    LatestNotTagged();
    match ParseSelector(tag)
    case LatestRelease => Some(LatestUrl(repo))
    case Tagged(name) => Some(TagUrl(repo, name))
    case Unrecognised(_) => None
  }

  /** The lookup of the selector `q.tag`: at most one request, and none for
      a selector GitLab cannot use. */
  function Lookup(q: AssetQuery, api: Api): (run: Run<seq<Url>>)
    ensures |run.requests| <= 1
    ensures run.requests == [] <==> RequestUrl(q.repo, q.tag).None?
    ensures run.requests == [] ==> run.result == Err(InvalidTag(q.tag))
    ensures run.requests != [] ==> run.requests[0] == RequestUrl(q.repo, q.tag).value
  {
    match RequestUrl(q.repo, q.tag)
    case None => Run(Err(InvalidTag(q.tag)), [])
    case Some(url) =>
      var result :=
        match api(url)
        case TransportFailure(reason) => Err(Transport(reason))
        case Reply(code, status, body) =>
          if code != StatusOK then
            if body.Unreadable? then Err(Transport(body.reason))
            else if ParseSelector(q.tag).Tagged? && code == StatusNotFound then
              Err(NoMatch(ParseSelector(q.tag).name))
            else Err(Gitlab(PlatformError(code, status, body, url)))
          else
            match DecodeRelease(body)
            case Err(e) => Err(e)
            case Ok(release) => Recent(release, q.minTime);
      Run(result, [url])
  }

  /** `GitlabAssetFinder.Find`: the prerelease rewrite, then the lookup. It
      never makes more than two requests. */
  function Find(q: AssetQuery, api: Api): (run: Run<seq<Url>>)
    ensures |run.requests| <= 2
  {
    var pinned := Prerelease.ResolveTag(q, api, ListUrl(q.repo));
    match pinned.result
    case Err(e) => Run(Err(e), pinned.requests)
    case Ok(tag) =>
      var lookup := Lookup(q.(tag := tag), api);
      Run(lookup.result, pinned.requests + lookup.requests)
  }
}

/** What the GitLab finder promises, stated over the scripted API. */
module GitlabFacts {
  import opened Strings
  import opened UrlEscape
  import opened Api
  import Prerelease
  import opened Gitlab

  /** A selector that is neither `"latest"` nor `"tags/<tag>"` fails with
      the invalid-format error before any request. */
  lemma InvalidTagFailsFast(q: AssetQuery, api: Api)
    requires q.tag != Latest && !HasPrefix(q.tag, TagsPrefix)
    ensures Find(q, api) == Run(Err(InvalidTag(q.tag)), [])
  {
  }

  /** `"latest"` without prereleases asks the permalink, once. */
  lemma LatestUsesPermalink(q: AssetQuery, api: Api)
    requires q.tag == Latest && !q.prerelease
    ensures Find(q, api).requests == [LatestUrl(q.repo)]
  {
  }

  /** A failure reply to the lookup: 404 for an exact tag is the no-match
      error at once, with no further request; any other status is a GitLab
      error carrying the status, body and lookup URL. A body that cannot be
      read fails before the status is examined. */
  lemma LookupFailureStatus(q: AssetQuery, api: Api, name: string)
    requires q.tag == TagsPrefix + name
    requires api(TagUrl(q.repo, name)).Reply? && api(TagUrl(q.repo, name)).code != StatusOK
    ensures var resp := api(TagUrl(q.repo, name));
      var run := Lookup(q, api);
      run.requests == [TagUrl(q.repo, name)]
      && (resp.body.Unreadable? ==> run.result == Err(Transport(resp.body.reason)))
      && (!resp.body.Unreadable? && resp.code == StatusNotFound ==> run.result == Err(NoMatch(name)))
      && (!resp.body.Unreadable? && resp.code != StatusNotFound ==>
            run.result == Err(Gitlab(PlatformError(resp.code, resp.status, resp.body, TagUrl(q.repo, name)))))
  {
    ParseRender(Tagged(name));
  }

  /** For `"latest"` even a 404 is a GitLab error, never the no-match error. */
  lemma LatestFailureIsPlatformError(q: AssetQuery, api: Api)
    requires q.tag == Latest
    requires api(LatestUrl(q.repo)).Reply? && api(LatestUrl(q.repo)).code != StatusOK
    requires !api(LatestUrl(q.repo)).body.Unreadable?
    ensures var resp := api(LatestUrl(q.repo));
      Lookup(q, api) == Run(Err(Gitlab(PlatformError(resp.code, resp.status, resp.body, LatestUrl(q.repo)))),
                            [LatestUrl(q.repo)])
  {
  }

  /** A success reply decides the result on its own: the no-upgrade sentinel
      for a release created before the floor, its assets otherwise. */
  lemma LookupSuccess(q: AssetQuery, api: Api, url: Url, r: Release)
    requires RequestUrl(q.repo, q.tag) == Some(url)
    requires api(url).Reply? && api(url).code == StatusOK && api(url).body == ReleaseDoc(r)
    ensures Lookup(q, api).requests == [url]
    ensures Before(r.createdAt, q.minTime) ==> Lookup(q, api).result == Err(NoUpgrade)
    ensures !Before(r.createdAt, q.minTime) ==> Lookup(q, api).result == Ok(r.assets)
  {
  }

  /** A failed lookup request is passed on unchanged after that one
      request. */
  lemma LookupTransportFailure(q: AssetQuery, api: Api, url: Url)
    requires RequestUrl(q.repo, q.tag) == Some(url) && api(url).TransportFailure?
    ensures Lookup(q, api) == Run(Err(Transport(api(url).reason)), [url])
  {
  }

  /** A 200 reply that holds no release: a failed read is a transport
      error, a list or malformed JSON a decode error, and an error object
      decodes to the zero release, which the floor then judges. */
  lemma LookupDecodeFailure(q: AssetQuery, api: Api, url: Url)
    requires RequestUrl(q.repo, q.tag) == Some(url)
    requires api(url).Reply? && api(url).code == StatusOK && !api(url).body.ReleaseDoc?
    ensures Lookup(q, api).requests == [url]
    ensures api(url).body.Unreadable? ==> Lookup(q, api).result == Err(Transport(api(url).body.reason))
    ensures api(url).body.ListDoc? || api(url).body.Malformed? ==>
      Lookup(q, api).result.Err? && Lookup(q, api).result.error.Decode?
    ensures api(url).body.ErrorDoc? ==> Lookup(q, api).result == Recent(ZeroRelease, q.minTime)
  {
  }

  /** Whatever path the finder takes, a list of assets it returns is the
      asset list of the release the API served to its last request, the
      lookup, and that release was not created before the floor. */
  lemma FindReturnsFreshRelease(q: AssetQuery, api: Api)
    ensures var run := Find(q, api);
      run.result.Ok? ==>
        exists r :: ServedAt(api(run.requests[|run.requests| - 1]), r)
          && !Before(r.createdAt, q.minTime) && run.result.value == r.assets
  {
    var run := Find(q, api);
    var pinned := Prerelease.ResolveTag(q, api, ListUrl(q.repo));
    if run.result.Ok? {
      var q' := q.(tag := pinned.result.value);
      var lookup := Lookup(q', api);
      var url := RequestUrl(q'.repo, q'.tag).value;
      assert run.requests == pinned.requests + lookup.requests;
      assert lookup.requests == [url];
      var r := DecodeRelease(api(url).body).value;
      assert ServedAt(api(url), r);
      assert url in run.requests;
    }
  }

  /** A prerelease finder asking for `"latest"` first lists the releases.
      An empty or failed listing ends the search after that one request;
      otherwise the finder looks up `"tags/"` followed by the tag of the
      first listed release. */
  lemma FindRewritesLatest(q: AssetQuery, api: Api)
    requires q.prerelease && q.tag == Latest
    ensures Find(q, api).requests[0] == ListUrl(q.repo)
    ensures Prerelease.Listed(api(ListUrl(q.repo))) == Ok([]) ==>
      Find(q, api) == Run(Err(NoReleases), [ListUrl(q.repo)])
    ensures Prerelease.Listed(api(ListUrl(q.repo))).Err? ==>
      Find(q, api) == Run(Err(PreReleaseFinder(Prerelease.Listed(api(ListUrl(q.repo))).error)), [ListUrl(q.repo)])
    ensures Prerelease.Listed(api(ListUrl(q.repo))).Ok? && |Prerelease.Listed(api(ListUrl(q.repo))).value| > 0 ==>
      var name := Prerelease.Listed(api(ListUrl(q.repo))).value[0].tag;
      var lookup := Lookup(q.(tag := TagsPrefix + name), api);
      Find(q, api).requests == [ListUrl(q.repo), TagUrl(q.repo, name)]
      && Find(q, api) == Run(lookup.result, [ListUrl(q.repo)] + lookup.requests)
  {
    if Prerelease.Listed(api(ListUrl(q.repo))).Ok? && |Prerelease.Listed(api(ListUrl(q.repo))).value| > 0 {
      var name := Prerelease.Listed(api(ListUrl(q.repo))).value[0].tag;
      ParseRender(Tagged(name));
    }
  }

  /** Without the prerelease rewrite the finder is the lookup of its own
      selector. */
  lemma FindKeepsSelector(q: AssetQuery, api: Api)
    requires !(q.prerelease && q.tag == Latest)
    ensures Find(q, api) == Lookup(q, api)
  {
  }

  /** A common head can be cancelled from two equal concatenations. */
  lemma CancelHead(head: string, a: string, b: string)
    requires head + a == head + b
    ensures a == b
  {
    assert a == (head + a)[|head|..];
    assert b == (head + b)[|head|..];
  }

  /** The three request shapes never coincide: the listing, the permalink
      of the latest release and the release of an exact tag, whatever the
      tag, because an escaped tag holds no `/`. */
  lemma UrlsDistinct(repo: string, name: string)
    ensures ListUrl(repo) != LatestUrl(repo) && ListUrl(repo) != TagUrl(repo, name)
    ensures LatestUrl(repo) != TagUrl(repo, name)
  {
    var project := ProjectUrl(repo);
    var escaped := QueryEscape(name);
    var permalink := "permalink/latest";
    assert LatestUrl(repo) == project + ("/releases/" + permalink);
    assert TagUrl(repo, name) == project + ("/releases/" + escaped);
    EscapedIsOneSegment(name);
    assert permalink[9] == '/';
    assert escaped != permalink;
    if LatestUrl(repo) == TagUrl(repo, name) {
      CancelHead(project, "/releases/" + permalink, "/releases/" + escaped);
      CancelHead("/releases/", permalink, escaped);
    }
  }

  /** The project identifier is escaped into a single path segment: for a
      project `owner/name` of plain characters, the separator becomes
      `%2F`. */
  lemma ProjectPathEscaped(owner: string, name: string)
    requires forall i :: 0 <= i < |owner| ==> Unreserved(owner[i])
    requires forall i :: 0 <= i < |name| ==> Unreserved(name[i])
    ensures ProjectUrl(owner + "/" + name) == ApiRoot + owner + "%2F" + name
  {
    SlashEscaped(owner, name);
  }
}

=== FILE: prerelease.dfy ===
/** The `getLatestTag` step both release finders share, and the rewrite of
    the `"latest"` selector it feeds when prereleases are allowed. The two
    platforms differ only in the URL of their release listing. */
module Prerelease {
  import opened Strings
  import opened Api

  /** The releases a listing response decodes to. The status code is never
      looked at: an error status fails only because its body is not an
      array. */
  function Listed(resp: Response): (r: Result<seq<Release>>)
    ensures resp.TransportFailure? ==> r == Err(Transport(resp.reason))
    ensures r.Ok? <==> resp.Reply? && resp.body.ListDoc?
    ensures r.Ok? ==> r.value == resp.body.releases
  {
    match resp
    case TransportFailure(reason) => Err(Transport(reason))
    case Reply(_, _, body) => DecodeList(body)
  }

  /** `getLatestTag`: one request to the listing, whose first entry is the
      newest release, prerelease or not. */
  function Newest(api: Api, listUrl: Url): (run: Run<Release>)
    ensures run.requests == [listUrl]
    ensures run.result.Ok? <==> Listed(api(listUrl)).Ok? && |Listed(api(listUrl)).value| > 0
    ensures run.result.Ok? ==> run.result.value == Listed(api(listUrl)).value[0]
    ensures Listed(api(listUrl)) == Ok([]) ==> run.result == Err(NoReleases)
    ensures Listed(api(listUrl)).Err? ==>
      run.result == Err(PreReleaseFinder(Listed(api(listUrl)).error))
  {
    var result :=
      match Listed(api(listUrl))
      case Err(e) => Err(PreReleaseFinder(e))
      case Ok(releases) =>
        if |releases| <= 0 then Err(NoReleases) else Ok(releases[0]);
    Run(result, [listUrl])
  }

  /** The selector a finder goes on to look up, after the prerelease
      rewrite. Only a prerelease finder asking for `"latest"` lists
      releases; it then looks up `"tags/<newest tag>"`, or fails without
      going further. Every other finder keeps its selector and has made no
      request yet. */
  function ResolveTag(q: AssetQuery, api: Api, listUrl: Url): (run: Run<string>)
    ensures !(q.prerelease && q.tag == Latest) ==> run == Run(Ok(q.tag), [])
    ensures q.prerelease && q.tag == Latest ==> run.requests == [listUrl]
    ensures q.prerelease && q.tag == Latest ==>
      (run.result.Ok? <==> Newest(api, listUrl).result.Ok?)
    ensures q.prerelease && q.tag == Latest && run.result.Ok? ==>
      ParseSelector(run.result.value) == Tagged(Newest(api, listUrl).result.value.tag)
    ensures q.prerelease && q.tag == Latest && run.result.Err? ==>
      run.result.error == Newest(api, listUrl).result.error
    ensures run.result.Ok? ==> ParseSelector(run.result.value).Unrecognised? ==
                               ParseSelector(q.tag).Unrecognised?
  {
    if q.prerelease && q.tag == Latest then
      var newest := Newest(api, listUrl);
      match newest.result
      case Err(e) => Run(Err(e), newest.requests)
      case Ok(release) => Run(Ok(PinnedSelector(release)), newest.requests)
    else Run(Ok(q.tag), [])
  }
}

=== FILE: scenarios.dfy ===
/** Worked examples: the finders against small scripted APIs. */
module Scenarios {
  import opened Strings
  import opened Api
  import Errors
  import Archive
  import Github
  import GithubFacts
  import Finders

  const Repo := "o/r"

  /** The source-archive finders for tool `foo`, project `o/r`, tag `v1`. */
  lemma ArchiveExamples()
    ensures Finders.Find(Finders.GithubSource("foo", Repo, "v1"), _ => TransportFailure(""), 0)
      == Run(Ok(["https://github.com/o/r/tarball/v1/foo.tar.gz"]), [])
    ensures Finders.Find(Finders.GitlabSource("foo", Repo, "v1"), _ => TransportFailure(""), 0)
      == Run(Ok(["https://gitlab.com/o/r/-/archive/v1/foo.tar.gz"]), [])
    ensures Finders.Find(Finders.Direct("https://x/y"), _ => TransportFailure(""), 0)
      == Run(Ok(["https://x/y"]), [])
  {
    assert Archive.ArchiveUrl(Archive.GithubSite, Archive.GithubMarker, "foo", Repo, "v1")
      == "https://github.com/o/r/tarball/v1/foo.tar.gz";
    assert Archive.ArchiveUrl(Archive.GitlabSite, Archive.GitlabMarker, "foo", Repo, "v1")
      == "https://gitlab.com/o/r/-/archive/v1/foo.tar.gz";
  }

  /** A rate-limited GitHub reply renders its status, message and link. */
  lemma ForbiddenRendering()
    ensures var e := PlatformError(403, "403 Forbidden", ErrorDoc("rate limited", "https://docs"), "u");
      var text := Errors.GithubMessage(e);
      HasPrefix(text, "403 Forbidden") && Contains(text, "rate limited") && Contains(text, "https://docs")
  {
  }

  const Wanted := Release("release-v1.0-final", 100, false, ["a1", "a2"])
  const WantedPre := Release("release-v1.0-final", 200, true, ["p1"])

  /** GitHub does not know `v1.0`; page 1 of the listing lists a prerelease
      and then a final release whose tags both contain it; every other URL
      gets an empty listing. */
  function FallbackApi(): Api {
    u =>
      if u == Github.ReleaseUrl(Repo, "tags/v1.0") then Reply(404, "404 Not Found", ErrorDoc("Not Found", ""))
      else if u == Github.PageUrl(Repo, 1) then Reply(200, "200 OK", ListDoc([WantedPre, Wanted]))
      else Reply(200, "200 OK", ListDoc([]))
  }

  /** The query of the fallback scenario: exact tag `v1.0`, prereleases not
      wanted, a floor of 50. */
  const Query := AssetQuery(Repo, "tags/v1.0", false, 50)

  /** Page 1 of `FallbackApi` is short, so the search stops there. */
  lemma FallbackSearchEnds()
    ensures Github.FindEnds(Query, FallbackApi(), 1)
  {
    assert !Github.FullPage(FallbackApi()(Github.PageUrl(Repo, 1)));
  }

  lemma LookupAndPageDiffer()
    ensures Github.ReleaseUrl(Repo, "tags/v1.0") != Github.PageUrl(Repo, 1)
  {
    var n := |Github.ApiRoot + Repo + "/releases"|;
    assert Github.ReleaseUrl(Repo, "tags/v1.0")[n] == '/';
    assert Github.PageUrl(Repo, 1)[n] == '?';
  }

  /** The GitHub finder for `Query` against `FallbackApi`. */
  function FallbackRun(): Run<seq<Url>> {
    FallbackSearchEnds();
    Github.Find(Query, FallbackApi(), 1)
  }

  /** On page 1 the search skips the prerelease and accepts the final
      release; it reads no further page. */
  lemma FallbackSearch()
    ensures Github.EndsBy(Query, "v1.0", FallbackApi(), 1)
    ensures Github.FindMatch(Query, "v1.0", FallbackApi(), 1) == Run(Ok(["a1", "a2"]), [Github.PageUrl(Repo, 1)])
  {
    var api := FallbackApi();
    var page := Github.PageUrl(Repo, 1);
    LookupAndPageDiffer();
    assert api(page) == Reply(200, "200 OK", ListDoc([WantedPre, Wanted]));
    InfixContained("release-", "v1.0", "-final");
    assert Wanted.tag == "release-" + "v1.0" + "-final";
    assert Github.FirstAt(Query, "v1.0", [WantedPre, Wanted], 1);
    GithubFacts.FirstMatchWins(Query, "v1.0", api, 1, 1, 1);
    var search := Github.FindMatch(Query, "v1.0", api, 1);
    assert search.requests == [page];
  }

  /** The search skips the prerelease and returns the assets of the final
      release, in order, after two requests. */
  lemma FallbackFindsDecoratedTag()
    ensures FallbackRun() == Run(Ok(["a1", "a2"]), [Github.ReleaseUrl(Repo, "tags/v1.0"), Github.PageUrl(Repo, 1)])
  {
    var q := Query;
    var api := FallbackApi();
    var url := Github.ReleaseUrl(Repo, q.tag);
    FallbackSearchEnds();
    GithubFacts.FindKeepsSelector(q, api, 1);
    assert api(url) == Reply(404, "404 Not Found", ErrorDoc("Not Found", ""));
    assert HasPrefix(q.tag, TagsPrefix) && q.tag[|TagsPrefix|..] == "v1.0";
    GithubFacts.LookupFailureStatus(q, api, 1);
    FallbackSearch();
  }
}

=== FILE: strings.dfy ===
/** String helpers the finders rely on, modelled after Go's `strings` package
    and `fmt`'s `%d` verb. Strings are sequences of characters. */
module Strings {

  datatype Option<+T> = None | Some(value: T)

  /** Go's `strings.HasPrefix`. */
  predicate HasPrefix(s: string, prefix: string) {
    |prefix| <= |s| && s[..|prefix|] == prefix
  }

  /** Go's `strings.CutPrefix`: what follows `prefix`, if `s` starts with it. */
  function CutPrefix(s: string, prefix: string): (r: Option<string>)
    ensures r.Some? <==> HasPrefix(s, prefix)
    ensures r.Some? ==> prefix + r.value == s
  {
    if HasPrefix(s, prefix) then
      assert s == s[..|prefix|] + s[|prefix|..];
      Some(s[|prefix|..])
    else None
  }

  /** `sub` occurs in `s` starting at index `i`. */
  ghost predicate OccursAt(s: string, sub: string, i: int) {
    0 <= i && i + |sub| <= |s| && s[i..i + |sub|] == sub
  }

  /** Go's `strings.Contains`, by recursion on the haystack: `sub` is a prefix
      of `s` or of one of its suffixes. The empty string is in every string. */
  predicate Contains(s: string, sub: string)
    decreases |s|
  {
    HasPrefix(s, sub) || (|s| > 0 && Contains(s[1..], sub))
  }

  /** An occurrence at any index makes `Contains` hold. */
  lemma {:induction false} OccursContained(s: string, sub: string, i: int)
    requires OccursAt(s, sub, i)
    ensures Contains(s, sub)
    decreases i
  {
    if i > 0 {
      assert s[1..][i - 1..i - 1 + |sub|] == s[i..i + |sub|];
      OccursContained(s[1..], sub, i - 1);
    }
  }

  /** When `Contains` holds, it names an index where `sub` occurs. */
  lemma {:induction false} ContainedOccurs(s: string, sub: string) returns (i: int)
    requires Contains(s, sub)
    ensures OccursAt(s, sub, i)
    decreases |s|
  {
    if HasPrefix(s, sub) {
      i := 0;
    } else {
      var j := ContainedOccurs(s[1..], sub);
      assert s[1..][j..j + |sub|] == s[j + 1..j + 1 + |sub|];
      i := j + 1;
    }
  }

  /** `Contains` is exactly "occurs at some index". */
  lemma ContainsIffOccurs(s: string, sub: string)
    ensures Contains(s, sub) <==> exists i :: OccursAt(s, sub, i)
  {
    if Contains(s, sub) {
      var i := ContainedOccurs(s, sub);
    }
    forall i | OccursAt(s, sub, i)
      ensures Contains(s, sub)
    {
      OccursContained(s, sub, i);
    }
  }

  /** Whatever is spliced between two strings can be found in the result. */
  lemma InfixContained(p: string, x: string, q: string)
    ensures Contains(p + x + q, x)
  {
    var s := p + x + q;
    assert s[|p|..|p| + |x|] == x;
    OccursContained(s, x, |p|);
  }

  function DigitChar(d: nat): (c: char)
    requires d < 10
    ensures '0' <= c <= '9'
  {
    "0123456789"[d]
  }

  predicate IsDigit(c: char) {
    '0' <= c <= '9'
  }

  /** The decimal rendering of a natural number, as `fmt`'s `%d` writes it:
      no sign, no leading zeros. */
  function Decimal(n: nat): (r: string)
    ensures 1 <= |r|
    ensures forall i :: 0 <= i < |r| ==> IsDigit(r[i])
    ensures |r| > 1 ==> r[0] != '0'
    decreases n
  {
    if n < 10 then [DigitChar(n)] else Decimal(n / 10) + [DigitChar(n % 10)]
  }

  /** The value of a string of decimal digits, the reading `Decimal` is
      checked against. */
  function DecimalValue(s: string): nat
    requires forall i :: 0 <= i < |s| ==> IsDigit(s[i])
  {
    assert |s| > 0 ==> IsDigit(s[|s| - 1]);
    if |s| == 0 then 0
    else 10 * DecimalValue(s[..|s| - 1]) + (s[|s| - 1] as int - '0' as int)
  }

  /** Reading the rendering of `n` back gives `n`: page numbers are rendered
      without loss. */
  lemma {:induction false} DecimalRoundTrip(n: nat)
    ensures DecimalValue(Decimal(n)) == n
    decreases n
  {
    var r := Decimal(n);
    if n < 10 {
      assert r[..|r| - 1] == [];
    } else {
      DecimalRoundTrip(n / 10);
      assert r[..|r| - 1] == Decimal(n / 10);
    }
  }

  /** Distinct page numbers give distinct renderings. */
  lemma DecimalInjective(m: nat, n: nat)
    requires Decimal(m) == Decimal(n)
    ensures m == n
  {
    DecimalRoundTrip(m);
    DecimalRoundTrip(n);
  }
}
